=== FILE: README.md ===
# Guardião de senhas: route guard, dashboard state and password generator

The application is a password vault with a diary. A routing-layer guard
decides, for each request, whether to send the browser to the login page
(`/auth`), to the main page (`/dashboard`), or to let it through. The
dashboard page keeps a handful of state fields: the shown panel (vault,
create, generate, diary), the vault and drawer overlays, the reveal and
copy-confirmation flags, the one-way diary unlock and the form fields. Its
event handlers update these fields in a fixed sequence: check the form, pass
a simulated biometric gate, fetch the user, insert, clear the form, switch
the panel and reload the list. A generator builds 16-character passwords
from an 88-character charset.

The project has four modules:

- `RouteGuard` (`route_guard.dfy`): the middleware's decision as a pure
  function, the path matcher that decides where it runs, and lemmas about
  both.
- `PasswordGenerator` (`password_generator.dfy`): the charset, the
  generator loop as a method, the function that specifies it, and the facts
  about length, alphabet and the one-to-one correspondence between draws and
  passwords.
- `Dashboard` (`dashboard.dfy`): the page as a class. Its fields are the
  source's state fields, there is one method per handler, and the invariant
  `Valid` is kept by every method.
- `Session` (`session.dfy`): which controls are rendered (`Rendered`),
  any sequence of events applied to one page (`Dispatch`, `Run`), and
  concrete runs that start from a signed-in, mounted page with a given
  password list and chain several handlers, pressing only controls that are
  rendered (a drawer only for a listed password).

External calls are parameters of the handlers:

- `UserLookup` is what `getUser` or `getSession` answered.
- `Outcome` is what an insert or a delete answered.
- `Listing` is what a list query answered.

The random draws of the generator are an input sequence of indices into the
charset. The clock's "today" is an input string. The biometric gate is a
function that returns `true`.

## Model

| member | source | states |
|---|---|---|
| `RouteGuard.Guard` | src/middleware.ts:16-33 | Every redirect goes to `/auth` or `/dashboard` and never to the requested path. The result is `/dashboard` exactly for a signed-in `/auth`. It is `/auth` exactly for an anonymous path starting with `/dashboard`, or for `/`. Otherwise it is `Next`. |
| `RouteGuard.RulesDisjoint` | src/middleware.ts:19-31 | No path satisfies two of the three rules, so the order in which they are tried never changes the answer. |
| `RouteGuard.AnonymousDashboardGoesToAuth` | src/middleware.ts:19-21 | With no user, every path that starts with `/dashboard` is redirected to `/auth`. |
| `RouteGuard.SignedInAuthGoesToDashboard` | src/middleware.ts:24-26 | With a user, a path is redirected to `/dashboard` if and only if it is exactly `/auth`. |
| `RouteGuard.RootAlwaysGoesToAuth` | src/middleware.ts:29-31 | `/` is redirected to `/auth`, whether or not there is a user. |
| `RouteGuard.PassThroughCases` | src/middleware.ts:33 | An anonymous `/auth` and a signed-in dashboard path both get `Next`. |
| `RouteGuard.RedirectsSettle` | src/middleware.ts:19-33 | Following redirects reaches `Next` within two hops, so there is no redirect loop. A signed-in `/` goes to `/auth`, then to `/dashboard`. |
| `RouteGuard.Middleware` | src/middleware.ts:36-38 | Paths outside the matcher always get `Next`. Matched paths get the guard's decision. A redirect target is itself a matched path and differs from the request. |
| `RouteGuard.MatchedDashboardPrefix` | src/middleware.ts:36-38 | On matched paths, the `startsWith('/dashboard')` test is true exactly for `/dashboard` and the paths below `/dashboard/`. |
| `RouteGuard.PrefixOutsideMatcher` | src/middleware.ts:36-38 | The guard alone would redirect an anonymous `/dashboardx`. The matcher never runs it there, so the request gets `Next`. |
| `PasswordGenerator.Spell` | src/app/dashboard/page.tsx:104-107 | The appended characters have the same count as the draws. Character `i` is the charset character at draw `i`. |
| `PasswordGenerator.RandomPassword` | src/app/dashboard/page.tsx:101-108 | The loop returns exactly the specified password. The result is 16 characters long and every character is in the charset. |
| `PasswordGenerator.CharsetAt` | src/app/dashboard/page.tsx:103 | The charset has 88 characters. Positions 0-25 are `a`-`z`, 26-51 are `A`-`Z`, 52-61 are `0`-`9`, and 62-87 are the symbols, none of which is a letter or a digit. |
| `PasswordGenerator.CharsetDistinct` | src/app/dashboard/page.tsx:103 | The 88 charset characters are pairwise distinct, so a uniform index gives a uniform character. |
| `PasswordGenerator.CharsetIsClasses` | src/app/dashboard/page.tsx:103 | A character is in the charset if and only if it is a lower-case letter, an upper-case letter, a digit or one of `!@#$%^&*()_+-=[]{}\|;:,.<>?`. |
| `PasswordGenerator.SpellInjective` | src/app/dashboard/page.tsx:105-107 | Different draws give different passwords. |
| `PasswordGenerator.SpellSurjective` | src/app/dashboard/page.tsx:105-107 | Every 16-character string over the charset is produced by some draws. With the previous lemma, draws and passwords correspond one to one. |
| `Dashboard.DashboardPage.constructor` | src/app/dashboard/page.tsx:30-53 | The initial state: vault panel, both overlays closed, nothing revealed or copied, empty forms, diary date set to today, diary locked. The invariant holds. |
| `Dashboard.DashboardPage.LoadPasswords` | src/app/dashboard/page.tsx:70-81 | The password list becomes the listed rows, or stays as it was when the query fails. |
| `Dashboard.DashboardPage.LoadDiaryEntries` | src/app/dashboard/page.tsx:83-94 | The same for the diary list. |
| `Dashboard.DashboardPage.CheckUser` | src/app/dashboard/page.tsx:59-68 | Without a session: navigate to `/auth` and change nothing. With a session: stop loading and reload both lists. |
| `Dashboard.DashboardPage.SelectCreate` | src/app/dashboard/page.tsx:283 | Shows the create panel. Nothing else changes, because of the frame. |
| `Dashboard.DashboardPage.SelectGenerate` | src/app/dashboard/page.tsx:295 | Shows the generate panel. Nothing else changes. |
| `Dashboard.DashboardPage.SelectDiary` | src/app/dashboard/page.tsx:307-310 | Always shows the diary panel and leaves the diary unlocked, so the diary form is shown. The gate runs exactly when the diary was locked. |
| `Dashboard.DashboardPage.OpenDiary` | src/app/dashboard/page.tsx:200-207 | The gate runs once, and after it the diary is unlocked. The flag is only ever set to true. |
| `Dashboard.DashboardPage.OpenVault` | src/app/dashboard/page.tsx:120-127 | The gate runs once, and after it the vault overlay is open. Nothing else changes. |
| `Dashboard.DashboardPage.OpenDrawer` | src/app/dashboard/page.tsx:129-136 | The gate runs once, and after it the drawer shows the chosen password. It is reachable only from the open vault, and the reveal flag is not reset. |
| `Dashboard.DashboardPage.CloseVault` | src/app/dashboard/page.tsx:568-571 | Closing the vault clears both `vaultOpen` and the selected password. |
| `Dashboard.DashboardPage.CloseDrawer` | src/app/dashboard/page.tsx:626 | Closing the drawer clears the selected password. The vault stays open. |
| `Dashboard.DashboardPage.ToggleShowPassword` | src/app/dashboard/page.tsx:643 | Flips the reveal flag. |
| `Dashboard.DashboardPage.CopyPassword` | src/app/dashboard/page.tsx:236-241 | The value goes to the clipboard and the confirmation is shown. One more reset timer is pending. |
| `Dashboard.DashboardPage.Tick` | src/app/dashboard/page.tsx:240 | A pending timer fires and clears the confirmation. With no timer pending, nothing changes. |
| `Dashboard.DashboardPage.DeletePassword` | src/app/dashboard/page.tsx:243-252 | The store is asked to delete the row with the given id. A successful delete reloads the list and clears the selected password, and leaves `vaultOpen` as it was. A failed delete changes nothing. |
| `Dashboard.DashboardPage.GenerateRandomPassword` | src/app/dashboard/page.tsx:101-109 | The generated-password field becomes the password spelled by the draws: 16 characters, all from the charset. |
| `Dashboard.DashboardPage.Edit` | src/app/dashboard/page.tsx:389-521 | An input's `onChange` sets that form field and no other. |
| `Dashboard.DashboardPage.SavePassword` | src/app/dashboard/page.tsx:138-167 | An empty name or value gives `MissingFields` and no state change. If there is no user, nothing is sent. Otherwise the record with the user's id, name and value is sent. The gate runs exactly when both fields are filled, before the user is fetched. Only a stored record clears both fields, shows the vault panel and reloads the list; a refused insert or a missing user leaves every page field as it was. |
| `Dashboard.DashboardPage.SaveGeneratedPassword` | src/app/dashboard/page.tsx:169-198 | The same for the generated password and its name, including the gate running exactly when both are filled. A stored generated password is a 16-character charset string. |
| `Dashboard.DashboardPage.SaveDiaryEntry` | src/app/dashboard/page.tsx:209-234 | The gate never runs. An empty title or content gives `MissingFields` and no change. A stored entry carries the user's id, title, content and date; it clears title and content, resets the date to today and reloads the list, and the panel stays the same. Every other ending changes nothing. |
| `Session.Dispatch` | src/app/dashboard/page.tsx:254-662 | A rendered control runs the handler it is wired to, with the page's arguments (`Wired`). Copy sends the selected password's value to the clipboard, delete sends the selected password's id, each save sends its record exactly when the form is filled and a user is signed in, and each input sets its own field. An event whose control is not rendered changes nothing and sends nothing: while loading, every press; after loading, the mount effect; a drawer press for a password that is not listed (one drawer button per listed password, 582-593); and a control of a hidden panel or closed overlay. Any event keeps the page invariant and never locks the diary again. The vault panel is entered only through one of the two password saves. Only the vault, drawer and diary buttons and the two password saves run the gate (122, 131, 145, 176, 202), and only they open the vault, a drawer or the diary. |
| `Session.Run` | src/app/dashboard/page.tsx:26-53 | Over any sequence of events, the invariant holds throughout and the diary unlock is monotonic. |
| `Session.GenerateAndStore` | src/app/dashboard/page.tsx:169-198 | Generate, name it "Email" and save: the store receives this user's 16-character charset password named "Email". The page is on the vault panel with the generated password and its name both cleared, and the opened vault shows the reloaded list. |
| `Session.SaveWithoutName` | src/app/dashboard/page.tsx:138-142 | A save with an empty name sends nothing and stays on the create panel with the typed value kept. |
| `Session.SaveRefused` | src/app/dashboard/page.tsx:157-158 | A refused insert keeps both typed fields and the create panel. |
| `Session.CopyThenTick` | src/app/dashboard/page.tsx:236-241 | After a copy the confirmation is shown, and after the next tick it is gone. |
| `Session.DeleteFromDrawer` | src/app/dashboard/page.tsx:243-252 | The delete button of a listed password's drawer asks the store to delete that password's id. After a delete the vault stays open. The drawer closes exactly when the delete succeeded. |
| `Session.DiaryTwice` | src/app/dashboard/page.tsx:307-310 | The diary button runs the gate the first time and not the second. The panel is the diary both times. |
| `Session.DiaryEntryStored` | src/app/dashboard/page.tsx:209-234 | An empty entry is refused. A full entry is stored with its date, the form is cleared and dated today, and the panel stays the diary. |
| `Session.RevealCarriesOver` | src/app/dashboard/page.tsx:129-136 | A password revealed in one drawer leaves the next opened drawer already revealed. |

The page invariant `Dashboard.DashboardPage.Valid` says three things:

- The drawer overlay is open only on top of the open vault overlay.
- A shown copy confirmation always has a pending timer that will clear it.
- The generated password is either empty or a 16-character string over the
  charset.

`Valid` holds after the constructor and is kept by every handler, each
handler running as one step (see `Dashboard.DashboardPage.Valid` under
"## Left out" for the interleaving this excludes).

### Behaviour worth noting

- Deleting a password closes only the drawer; `vaultOpen` stays as it was
  (src/app/dashboard/page.tsx:243-252). `DeletePassword` and
  `Session.DeleteFromDrawer` state this.
- `showPassword` is never reset when a drawer opens or closes
  (src/app/dashboard/page.tsx:129-136, 626), so a revealed value stays
  revealed in the next drawer. `Session.RevealCarriesOver` states this.

## Left out

- `handleLogout` (src/app/dashboard/page.tsx:96-99): a sign-out call to the identity service followed by a navigation. It changes no page state.
- The calls to the identity and record services (`getSession`, `getUser`, `signOut`, insert, delete, select, `onAuthStateChange`): foreign network calls. Their answers are handler parameters. The store's ordering of lists (by `created_at` or `date`, descending) is the store's own guarantee, and the model takes the listed rows as given.
- Cookie reading and environment lookup in the middleware (src/middleware.ts:6-13): I/O. The guard takes "user present" as a boolean.
- `Math.random`: floating point and nondeterministic. It is replaced by the sequence of drawn indices, each below 88.
- The 1-second gate delay, the 2-second timer delay, and the interleaving of asynchronous handlers: timing and concurrency. Each handler runs as one atomic step, including the list reload it starts without awaiting. The timer is the discrete step `Tick`, and timers fire in the order they were started.
- `Dashboard.DashboardPage.Valid`: its first clause (the drawer is open only while the vault is open) relies on handlers being atomic. In the source, `handleOpenDrawer` awaits the 1-second gate before `setSelectedPassword` (src/app/dashboard/page.tsx:129-136); a click on the vault's close button during that second (568-571) leaves `selectedPassword` set with `vaultOpen` false, and the drawer modal, rendered outside the vault block (620), still shows. The model does not capture this race.
- A failing gate: the simulated gate cannot fail, so the branch where it fails is unreachable. It is not given an outcome of its own.
- Toasts, `console.error`, JSX rendering and styling: UI side effects. The clipboard write is modelled only as the value `CopyPassword` returns, and `router.push` only as the flag `CheckUser` returns.
- Pointer reach: a control covered by an open overlay (the vault modal at src/app/dashboard/page.tsx:565, the drawer at 621) is still in the document and reachable by keyboard, so `Session.Rendered` counts it as rendered. The model allows presses that a mouse user cannot make while an overlay is open.
- `pinForSave`, `showPinDialog`: state that no handler reads. (The `loading` flag is modelled: while it is set only the spinner is rendered, so `Session.Dispatch` ignores every press, and the mount effect runs only while it is set.)
- `RouteGuard.Middleware`: the matcher pattern `/dashboard/:path*` is taken to match `/dashboard` and every path that starts with `/dashboard/`. The framework's trailing-slash and encoding normalisation is not modelled.
- src/app/auth/page.tsx and src/app/page.tsx are not part of this model. The first is login-provider configuration plus a session redirect that repeats the guard's `/auth` rule. The second is an unconditional redirect.

=== FILE: dashboard.dfy ===
/** The dashboard page (src/app/dashboard/page.tsx): its state fields and
    the event handlers that change them.

    Every handler of the source runs its steps in a fixed order: validate the
    form, pass the biometric gate, fetch the user, insert, then clear the form,
    switch the panel and reload the list. Each handler here is one method that
    performs the whole sequence as one step. The calls into the hosted
    authentication and database service are not modelled; what they answer is
    a parameter of the handler (`UserLookup`, `Outcome`, `Listing`). The
    biometric gate always succeeds, and the two-second timer of the copy
    confirmation is the separate step `Tick`.
 */
module Dashboard {
  import opened PasswordGenerator

  /** The panel selector: exactly one of the four panels is shown. */
  datatype View = Vault | Create | Generate | Diary

  datatype Option<T> = None | Some(value: T)

  /** A row of the `passwords` collection. */
  datatype Password = Password(id: string, userId: string, name: string, password: string, createdAt: string)

  /** A row of the `diary_entries` collection. */
  datatype DiaryEntry = DiaryEntry(id: string, userId: string, title: string, content: string, date: string)

  /** The records the handlers send with an insert. */
  datatype PasswordInsert = PasswordInsert(userId: string, name: string, password: string)
  datatype DiaryInsert = DiaryInsert(userId: string, title: string, content: string, date: string)

  /** What `auth.getUser()` / `auth.getSession()` answered. */
  datatype UserLookup = NoUser | SignedIn(id: string)

  /** What an insert or a delete call answered. */
  datatype Outcome = Ok | Err

  /** What a list call (`select('*').order(...)`) answered. */
  datatype Listing<T> = Listed(rows: seq<T>) | ListFailed

  /** How a save handler ended. `MissingFields`: the form check failed and
      nothing was sent. `SignedOut`: no user, nothing was sent.
      `InsertFailed`: the record was sent and the store refused it.
      `Saved`: the record was stored. */
  datatype SaveStatus<R> = MissingFields | SignedOut | InsertFailed(attempted: R) | Saved(inserted: R)

  /** The form inputs whose `onChange` writes a state field. */
  datatype FormField =
    | NewPasswordName | NewPasswordValue | GeneratedPasswordName
    | DiaryDate | DiaryTitle | DiaryContent

  /** `simulateBiometricAuth`: resolves to true, always. */
  function BiometricGate(): bool {
    true
  }

  /** The rows a list call leaves in state: the listed rows, or, when the
      call failed, the rows that were there before. */
  function Reloaded<T>(listing: Listing<T>, before: seq<T>): seq<T> {
    match listing
    case Listed(r) => r
    case ListFailed => before
  }

  class DashboardPage {
    var loading: bool
    var currentView: View
    var passwords: seq<Password>
    var diaryEntries: seq<DiaryEntry>
    var vaultOpen: bool
    var selectedPassword: Option<Password>
    var showPassword: bool
    var copied: bool
    /** Copy-confirmation timers started and not yet fired. */
    var pendingCopyResets: nat

    var newPasswordName: string
    var newPasswordValue: string

    var generatedPassword: string
    var generatedPasswordName: string

    var diaryTitle: string
    var diaryContent: string
    var diaryDate: string
    /** The single-unlock-per-session diary flag. */
    var diaryOpen: bool

    /** How many times a handler has awaited the biometric gate. No state
        of the page holds this; it records which handlers run the gate. */
    ghost var gateRuns: nat

    /** What holds in every state reachable when each handler runs as one
        step: the drawer overlay only sits on top of the open vault, a shown
        copy confirmation always has a timer that will clear it, and the
        generated password is either absent or a 16-character string over the
        charset. */
    ghost predicate Valid()
      reads this
    {
      (selectedPassword.Some? ==> vaultOpen) &&
      (copied ==> pendingCopyResets > 0) &&
      (generatedPassword == "" || IsGeneratedPassword(generatedPassword))
    }

    /** The diary form is rendered only on the diary panel once unlocked. */
    predicate DiaryFormShown()
      reads this
    {
      currentView == Diary && diaryOpen
    }

    /** The text of one form input. */
    function FieldValue(field: FormField): string
      reads this
    {
      match field
      case NewPasswordName => newPasswordName
      case NewPasswordValue => newPasswordValue
      case GeneratedPasswordName => generatedPasswordName
      case DiaryDate => diaryDate
      case DiaryTitle => diaryTitle
      case DiaryContent => diaryContent
    }

    /** The initial state; `today` is the current date, the clock being
        outside the model. */
    constructor (today: string)
      ensures Valid()
      ensures loading && currentView == Vault
      ensures passwords == [] && diaryEntries == []
      ensures !vaultOpen && selectedPassword == None
      ensures !showPassword && !copied && pendingCopyResets == 0
      ensures newPasswordName == "" && newPasswordValue == ""
      ensures generatedPassword == "" && generatedPasswordName == ""
      ensures diaryTitle == "" && diaryContent == "" && diaryDate == today
      ensures !diaryOpen
      ensures gateRuns == 0
    {
      gateRuns := 0;
      loading := true;
      currentView := Vault;
      passwords := [];
      diaryEntries := [];
      vaultOpen := false;
      selectedPassword := None;
      showPassword := false;
      copied := false;
      pendingCopyResets := 0;
      newPasswordName := "";
      newPasswordValue := "";
      generatedPassword := "";
      generatedPasswordName := "";
      diaryTitle := "";
      diaryContent := "";
      diaryDate := today;
      diaryOpen := false;
    }

    /** `loadPasswords`: a failed list call keeps the old rows. */
    method LoadPasswords(listing: Listing<Password>)
      modifies this`passwords
      ensures passwords == Reloaded(listing, old(passwords))
    {
      if listing.Listed? {
        passwords := listing.rows;
      }
    }

    /** `loadDiaryEntries`: a failed list call keeps the old rows. */
    method LoadDiaryEntries(listing: Listing<DiaryEntry>)
      modifies this`diaryEntries
      ensures diaryEntries == Reloaded(listing, old(diaryEntries))
    {
      if listing.Listed? {
        diaryEntries := listing.rows;
      }
    }

    /** `checkUser`, run on mount: without a session the page navigates to
        `/auth` and changes nothing; with one it stops loading and loads both
        lists. */
    method CheckUser(session: bool, passwordList: Listing<Password>, diaryList: Listing<DiaryEntry>)
      returns (redirectToAuth: bool)
      modifies this`loading, this`passwords, this`diaryEntries
      ensures redirectToAuth <==> !session
      ensures !session ==> unchanged(this)
      ensures session ==> !loading
      ensures session ==> passwords == Reloaded(passwordList, old(passwords))
      ensures session ==> diaryEntries == Reloaded(diaryList, old(diaryEntries))
    {
      redirectToAuth := !session;
      if session {
        loading := false;
        LoadPasswords(passwordList);
        LoadDiaryEntries(diaryList);
      }
    }

    /** The "create" panel button. */
    method SelectCreate()
      modifies this`currentView
      ensures currentView == Create
    {
      currentView := Create;
    }

    /** The "generate" panel button. */
    method SelectGenerate()
      modifies this`currentView
      ensures currentView == Generate
    {
      currentView := Generate;
    }

    /** `simulateBiometricAuth`, awaited by a gated handler: one more run
        of the gate, whose answer is `BiometricGate`. */
    method PassGate() returns (authenticated: bool)
      modifies this`gateRuns
      ensures gateRuns == old(gateRuns) + 1
      ensures authenticated == BiometricGate()
    {
      gateRuns := gateRuns + 1;
      authenticated := BiometricGate();
    }

    /** The "diary" panel button: always shows the diary panel, and runs the
        gate only while the diary is still locked. */
    method SelectDiary() returns (gated: bool)
      modifies this`currentView, this`diaryOpen, this`gateRuns
      ensures gated <==> !old(diaryOpen)
      ensures gateRuns == old(gateRuns) + (if gated then 1 else 0)
      ensures currentView == Diary && diaryOpen
      ensures DiaryFormShown()
    {
      currentView := Diary;
      gated := !diaryOpen;
      if !diaryOpen {
        OpenDiary();
      }
    }

    /** `handleOpenDiary`: the gate, then the one-way unlock. */
    method OpenDiary()
      modifies this`diaryOpen, this`gateRuns
      ensures diaryOpen
      ensures gateRuns == old(gateRuns) + 1
    {
      var authenticated := PassGate();
      if authenticated {
        diaryOpen := true;
      }
    }

    /** `handleOpenVault`: the gate, then the vault overlay opens. */
    method OpenVault()
      requires Valid()
      modifies this`vaultOpen, this`gateRuns
      ensures Valid()
      ensures vaultOpen
      ensures gateRuns == old(gateRuns) + 1
    {
      var authenticated := PassGate();
      if authenticated {
        vaultOpen := true;
      }
    }

    /** `handleOpenDrawer`: the gate, then the drawer overlay shows `p`. Its
        button exists only inside the open vault overlay. The reveal flag is
        left as it was. */
    method OpenDrawer(p: Password)
      requires Valid() && vaultOpen
      modifies this`selectedPassword, this`gateRuns
      ensures Valid()
      ensures selectedPassword == Some(p)
      ensures gateRuns == old(gateRuns) + 1
    {
      var authenticated := PassGate();
      if authenticated {
        selectedPassword := Some(p);
      }
    }

    /** The vault overlay's close button: closes the drawer too. */
    method CloseVault()
      requires Valid()
      modifies this`vaultOpen, this`selectedPassword
      ensures Valid()
      ensures !vaultOpen && selectedPassword == None
    {
      vaultOpen := false;
      selectedPassword := None;
    }

    /** The drawer overlay's close button: the vault stays open. */
    method CloseDrawer()
      requires Valid()
      modifies this`selectedPassword
      ensures Valid()
      ensures selectedPassword == None
    {
      selectedPassword := None;
    }

    /** The reveal toggle in the drawer. */
    method ToggleShowPassword()
      modifies this`showPassword
      ensures showPassword == !old(showPassword)
    {
      showPassword := !showPassword;
    }

    /** `handleCopyPassword`: `value` goes to the clipboard, the confirmation
        is shown and a timer to clear it is started. */
    method CopyPassword(value: string) returns (clipboard: string)
      requires Valid()
      modifies this`copied, this`pendingCopyResets
      ensures Valid()
      ensures clipboard == value
      ensures copied && pendingCopyResets == old(pendingCopyResets) + 1
    {
      clipboard := value;
      copied := true;
      pendingCopyResets := pendingCopyResets + 1;
    }

    /** The earliest pending copy timer fires and clears the confirmation;
        with no timer pending, time passing changes nothing. */
    method Tick()
      requires Valid()
      modifies this`copied, this`pendingCopyResets
      ensures Valid()
      ensures old(pendingCopyResets) > 0 ==> !copied && pendingCopyResets == old(pendingCopyResets) - 1
      ensures old(pendingCopyResets) == 0 ==> unchanged(this)
    {
      if pendingCopyResets > 0 {
        pendingCopyResets := pendingCopyResets - 1;
        copied := false;
      }
    }

    /** `handleDeletePassword`: the store is asked to delete the row whose
        id is `id` (`deleted`); on success the list is reloaded and the
        drawer closes; the vault overlay stays as it was. On failure nothing
        changes. */
    method DeletePassword(id: string, outcome: Outcome, listing: Listing<Password>)
      returns (deleted: string)
      requires Valid()
      modifies this`passwords, this`selectedPassword
      ensures Valid()
      ensures deleted == id
      ensures outcome == Err ==> unchanged(this)
      ensures outcome == Ok ==> selectedPassword == None
      ensures outcome == Ok ==> passwords == Reloaded(listing, old(passwords))
    {
      deleted := id;
      if outcome == Ok {
        LoadPasswords(listing);
        selectedPassword := None;
      }
    }

    /** `generateRandomPassword`, with the random draws as input. */
    method GenerateRandomPassword(draws: seq<nat>)
      requires Valid() && ValidDraws(draws)
      modifies this`generatedPassword
      ensures Valid()
      ensures generatedPassword == Spell(draws)
      ensures IsGeneratedPassword(generatedPassword)
    {
      generatedPassword := RandomPassword(draws);
    }

    /** The `onChange` of one form input: that input takes `text`, every
        other keeps its value. */
    method Edit(field: FormField, text: string)
      requires Valid()
      modifies this`newPasswordName, this`newPasswordValue, this`generatedPasswordName,
               this`diaryDate, this`diaryTitle, this`diaryContent
      ensures Valid()
      ensures FieldValue(field) == text
      ensures forall other :: other != field ==> FieldValue(other) == old(FieldValue(other))
    {
      match field
      case NewPasswordName => newPasswordName := text;
      case NewPasswordValue => newPasswordValue := text;
      case GeneratedPasswordName => generatedPasswordName := text;
      case DiaryDate => diaryDate := text;
      case DiaryTitle => diaryTitle := text;
      case DiaryContent => diaryContent := text;
    }

    /** `handleSavePassword`: check the form, pass the gate, fetch the user,
        insert; only a stored record clears the form, shows the vault panel
        and reloads the list. Every other ending leaves the state as it was. */
    method SavePassword(user: UserLookup, insert: Outcome, listing: Listing<Password>)
      returns (status: SaveStatus<PasswordInsert>)
      requires Valid()
      modifies this`newPasswordName, this`newPasswordValue, this`currentView, this`passwords,
               this`gateRuns
      ensures Valid()
      ensures status == MissingFields <==> old(newPasswordName) == "" || old(newPasswordValue) == ""
      ensures status == SignedOut <==>
        old(newPasswordName) != "" && old(newPasswordValue) != "" && user == NoUser
      ensures status.InsertFailed? || status.Saved? ==>
        user.SignedIn? &&
        (if status.Saved? then status.inserted else status.attempted) ==
          PasswordInsert(user.id, old(newPasswordName), old(newPasswordValue))
      ensures status.Saved? <==>
        old(newPasswordName) != "" && old(newPasswordValue) != "" && user.SignedIn? && insert == Ok
      ensures status == MissingFields ==> unchanged(this)
      ensures !status.Saved? ==>
        unchanged(this`newPasswordName, this`newPasswordValue, this`currentView, this`passwords)
      ensures gateRuns == old(gateRuns) + (if status == MissingFields then 0 else 1)
      ensures status.Saved? ==>
        newPasswordName == "" && newPasswordValue == "" && currentView == Vault &&
        passwords == Reloaded(listing, old(passwords))
    {
      if newPasswordName == "" || newPasswordValue == "" {
        return MissingFields;
      }
      var authenticated := PassGate();
      if authenticated {
        if user == NoUser {
          return SignedOut;
        }
        var record := PasswordInsert(user.id, newPasswordName, newPasswordValue);
        if insert == Err {
          return InsertFailed(record);
        }
        newPasswordName := "";
        newPasswordValue := "";
        currentView := Vault;
        LoadPasswords(listing);
        status := Saved(record);
      }
    }

    /** `handleSaveGeneratedPassword`: as `SavePassword`, for the name typed
        on the generate panel and the generated password. */
    method SaveGeneratedPassword(user: UserLookup, insert: Outcome, listing: Listing<Password>)
      returns (status: SaveStatus<PasswordInsert>)
      requires Valid()
      modifies this`generatedPasswordName, this`generatedPassword, this`currentView, this`passwords,
               this`gateRuns
      ensures Valid()
      ensures status == MissingFields <==> old(generatedPasswordName) == "" || old(generatedPassword) == ""
      ensures status == SignedOut <==>
        old(generatedPasswordName) != "" && old(generatedPassword) != "" && user == NoUser
      ensures status.InsertFailed? || status.Saved? ==>
        user.SignedIn? &&
        (if status.Saved? then status.inserted else status.attempted) ==
          PasswordInsert(user.id, old(generatedPasswordName), old(generatedPassword))
      ensures status.Saved? ==> IsGeneratedPassword(status.inserted.password)
      ensures status.Saved? <==>
        old(generatedPasswordName) != "" && old(generatedPassword) != "" && user.SignedIn? && insert == Ok
      ensures status == MissingFields ==> unchanged(this)
      ensures !status.Saved? ==>
        unchanged(this`generatedPasswordName, this`generatedPassword, this`currentView, this`passwords)
      ensures gateRuns == old(gateRuns) + (if status == MissingFields then 0 else 1)
      ensures status.Saved? ==>
        generatedPasswordName == "" && generatedPassword == "" && currentView == Vault &&
        passwords == Reloaded(listing, old(passwords))
    {
      if generatedPasswordName == "" || generatedPassword == "" {
        return MissingFields;
      }
      var authenticated := PassGate();
      if authenticated {
        if user == NoUser {
          return SignedOut;
        }
        var record := PasswordInsert(user.id, generatedPasswordName, generatedPassword);
        if insert == Err {
          return InsertFailed(record);
        }
        generatedPasswordName := "";
        generatedPassword := "";
        currentView := Vault;
        LoadPasswords(listing);
        status := Saved(record);
      }
    }

    /** `handleSaveDiaryEntry`: no gate. A stored entry clears the title and
        the content, resets the date to `today` and reloads the list; the
        panel does not change. Every other ending leaves the state as it was. */
    method SaveDiaryEntry(user: UserLookup, insert: Outcome, listing: Listing<DiaryEntry>, today: string)
      returns (status: SaveStatus<DiaryInsert>)
      requires Valid()
      modifies this`diaryTitle, this`diaryContent, this`diaryDate, this`diaryEntries
      ensures Valid()
      ensures gateRuns == old(gateRuns)
      ensures status == MissingFields <==> old(diaryTitle) == "" || old(diaryContent) == ""
      ensures status == SignedOut <==>
        old(diaryTitle) != "" && old(diaryContent) != "" && user == NoUser
      ensures status.InsertFailed? || status.Saved? ==>
        user.SignedIn? &&
        (if status.Saved? then status.inserted else status.attempted) ==
          DiaryInsert(user.id, old(diaryTitle), old(diaryContent), old(diaryDate))
      ensures status.Saved? <==>
        old(diaryTitle) != "" && old(diaryContent) != "" && user.SignedIn? && insert == Ok
      ensures !status.Saved? ==> unchanged(this)
      ensures status.Saved? ==>
        diaryTitle == "" && diaryContent == "" && diaryDate == today &&
        diaryEntries == Reloaded(listing, old(diaryEntries))
    {
      if diaryTitle == "" || diaryContent == "" {
        return MissingFields;
      }
      if user == NoUser {
        return SignedOut;
      }
      var record := DiaryInsert(user.id, diaryTitle, diaryContent, diaryDate);
      if insert == Err {
        return InsertFailed(record);
      }
      diaryTitle := "";
      diaryContent := "";
      diaryDate := today;
      LoadDiaryEntries(listing);
      status := Saved(record);
    }
  }
}

=== FILE: password_generator.dfy ===
/** The password generator of the dashboard (`generateRandomPassword` in
    src/app/dashboard/page.tsx).

    The source draws `Math.floor(Math.random() * charset.length)` sixteen
    times and appends the character at each index. The random source is not
    modelled; the generator takes the sixteen drawn indices as input, each
    below the charset's length, which is exactly what the floor of a draw in
    [0, 1) times 88 can be.
 */
module PasswordGenerator {

  /** The number of characters in a generated password. */
  const PasswordLength: nat := 16

  /** The source's charset literal, written as its four runs: lower-case
      letters, upper-case letters, digits and the punctuation symbols, in the
      order in which they occur in the literal. */
  const Lowercase: string := "abcdefghijklmnopqrstuvwxyz"
  const Uppercase: string := "ABCDEFGHIJKLMNOPQRSTUVWXYZ"
  const Digits: string := "0123456789"
  const Symbols: string := "!@#$%^&*()_+-=[]{}|;:,.<>?"
  const Charset: string := Lowercase + Uppercase + Digits + Symbols

  /** A character a generated password may contain, stated by class rather
      than by position in the charset. */
  predicate IsPasswordChar(c: char) {
    'a' <= c <= 'z' || 'A' <= c <= 'Z' || '0' <= c <= '9' || c in Symbols
  }

  /** What every output of the generator looks like. */
  predicate IsGeneratedPassword(p: string) {
    |p| == PasswordLength && forall i :: 0 <= i < |p| ==> p[i] in Charset
  }

  /** Random draws the generator can receive: one per character, each an
      index into the charset. */
  predicate ValidDraws(draws: seq<nat>) {
    |draws| == PasswordLength && forall i :: 0 <= i < |draws| ==> draws[i] < |Charset|
  }

  /** The characters picked by a sequence of indices, appended in order. */
  function Spell(draws: seq<nat>): (p: string)
    requires forall i :: 0 <= i < |draws| ==> draws[i] < |Charset|
    ensures |p| == |draws|
    ensures forall i :: 0 <= i < |draws| ==> p[i] == Charset[draws[i]]
  {
    if draws == [] then ""
    else Spell(draws[..|draws| - 1]) + [Charset[draws[|draws| - 1]]]
  }

  /** `generateRandomPassword`'s loop: sixteen appends to an accumulator. */
  method RandomPassword(draws: seq<nat>) returns (password: string)
    requires ValidDraws(draws)
    ensures password == Spell(draws)
    ensures IsGeneratedPassword(password)
  {
    password := "";
    var i := 0;
    while i < PasswordLength
      invariant 0 <= i <= PasswordLength
      invariant password == Spell(draws[..i])
    {
      assert draws[..i + 1][..i] == draws[..i];
      password := password + [Charset[draws[i]]];
      i := i + 1;
    }
    assert draws[..PasswordLength] == draws;
  }

  lemma LowercaseAt(k: int)
    requires 0 <= k < 26
    ensures Lowercase[k] as int == 'a' as int + k
  {
  }

  lemma UppercaseAt(k: int)
    requires 0 <= k < 26
    ensures Uppercase[k] as int == 'A' as int + k
  {
  }

  lemma DigitAt(k: int)
    requires 0 <= k < 10
    ensures Digits[k] as int == '0' as int + k
  {
  }

  lemma SymbolsDistinct(i: int, j: int)
    requires 0 <= i < j < |Symbols|
    ensures Symbols[i] != Symbols[j]
  {
  }

  lemma SymbolOutsideAlphanumerics(k: int)
    requires 0 <= k < |Symbols|
    ensures !('a' <= Symbols[k] <= 'z' || 'A' <= Symbols[k] <= 'Z' || '0' <= Symbols[k] <= '9')
  {
  }

  /** Two different positions among the letters and digits hold different
      characters: their codes are distinct. */
  lemma AlphanumericsDistinct(i: int, j: int)
    requires 0 <= i < 62 && 0 <= j < 62 && i != j
    ensures Charset[i] != Charset[j]
  {
    CharsetAt(i);
    CharsetAt(j);
    assert Charset[i] as int != Charset[j] as int;
  }

  /** Two different positions among the symbols hold different characters. */
  lemma CharsetSymbolsDistinct(i: int, j: int)
    requires 62 <= i < |Charset| && 62 <= j < |Charset| && i != j
    ensures Charset[i] != Charset[j]
  {
    CharsetAt(i);
    CharsetAt(j);
    if i < j { SymbolsDistinct(i - 62, j - 62); } else { SymbolsDistinct(j - 62, i - 62); }
  }

  /** The charset has 88 characters and they are pairwise distinct, so a
      uniform index gives a uniform character. */
  lemma {:induction false} CharsetDistinct(i: int, j: int)
    requires 0 <= i < |Charset| && 0 <= j < |Charset| && i != j
    ensures |Charset| == 88
    ensures Charset[i] != Charset[j]
  {
    CharsetAt(i);
    CharsetAt(j);
    if 62 <= i && 62 <= j {
      CharsetSymbolsDistinct(i, j);
    } else if i < 62 && j < 62 {
      AlphanumericsDistinct(i, j);
    }
  }

  /** Where each charset position falls: its class and, for letters and
      digits, its exact code. */
  lemma CharsetAt(k: int)
    requires 0 <= k < |Charset|
    ensures |Charset| == 88
    ensures k < 26 ==> Charset[k] as int == 'a' as int + k
    ensures 26 <= k < 52 ==> Charset[k] as int == 'A' as int + (k - 26)
    ensures 52 <= k < 62 ==> Charset[k] as int == '0' as int + (k - 52)
    ensures 62 <= k ==> Charset[k] == Symbols[k - 62]
    ensures 62 <= k ==> !('a' <= Charset[k] <= 'z' || 'A' <= Charset[k] <= 'Z' || '0' <= Charset[k] <= '9')
  {
    if k < 26 {
      LowercaseAt(k);
    } else if k < 52 {
      UppercaseAt(k - 26);
    } else if k < 62 {
      DigitAt(k - 52);
    } else {
      SymbolOutsideAlphanumerics(k - 62);
    }
  }

  /** The charset is exactly the letters, the digits and the symbols. */
  lemma CharsetIsClasses(c: char)
    ensures c in Charset <==> IsPasswordChar(c)
  {
    if c in Charset {
      var k :| 0 <= k < |Charset| && Charset[k] == c;
      CharsetAt(k);
      if 62 <= k {
        assert Symbols[k - 62] == c;
      }
    }
  }

  /** Different draws give different passwords. */
  lemma {:induction false} SpellInjective(d1: seq<nat>, d2: seq<nat>)
    requires ValidDraws(d1) && ValidDraws(d2)
    requires d1 != d2
    ensures Spell(d1) != Spell(d2)
  {
    var i :| 0 <= i < PasswordLength && d1[i] != d2[i];
    CharsetDistinct(d1[i], d2[i]);
    assert Spell(d1)[i] != Spell(d2)[i];
  }

  /** Every 16-character string over the charset is the output for some
      draws; with the previous lemma, draws and passwords correspond one to
      one, so uniform draws make every password equally likely. */
  lemma {:induction false} SpellSurjective(p: string)
    requires IsGeneratedPassword(p)
    ensures exists draws :: ValidDraws(draws) && Spell(draws) == p
  {
    var draws: seq<nat> := seq(|p|, i requires 0 <= i < |p| =>
      var k :| 0 <= k < |Charset| && Charset[k] == p[i]; k);
    assert ValidDraws(draws);
    assert Spell(draws) == p;
  }
}

=== FILE: route_guard.dfy ===
/** The routing-layer session gate (src/middleware.ts).

    The middleware reads the session cookie and asks the identity service for
    the user; here that lookup is reduced to the boolean `user`. What remains
    is a total decision from (user present?, pathname) to a redirect or a
    pass-through, with the rules tried in order and the first match winning.
 */
module RouteGuard {

  /** What the middleware answers for one request. */
  datatype Decision = Redirect(target: string) | Next

  const AuthPath: string := "/auth"
  const DashboardPath: string := "/dashboard"
  const RootPath: string := "/"

  /** `s.startsWith(prefix)` on strings. */
  predicate StartsWith(s: string, prefix: string) {
    |prefix| <= |s| && s[..|prefix|] == prefix
  }

  /** The three rules of the guard, each as the condition it tests. */
  predicate AnonymousOnDashboard(user: bool, pathname: string) {
    !user && StartsWith(pathname, DashboardPath)
  }

  predicate SignedInOnAuth(user: bool, pathname: string) {
    user && pathname == AuthPath
  }

  predicate OnRoot(pathname: string) {
    pathname == RootPath
  }

  /** The redirect decision, rules applied in source order. */
  function Guard(user: bool, pathname: string): (d: Decision)
    ensures d.Redirect? ==> d.target != pathname
    ensures d.Redirect? ==> d.target == AuthPath || d.target == DashboardPath
    ensures d == Redirect(DashboardPath) <==> user && pathname == AuthPath
    ensures d == Redirect(AuthPath) <==> (!user && StartsWith(pathname, DashboardPath)) || pathname == RootPath
    ensures d == Next <==> !AnonymousOnDashboard(user, pathname) && !SignedInOnAuth(user, pathname) && !OnRoot(pathname)
  {
    if AnonymousOnDashboard(user, pathname) then
      Redirect(AuthPath)
    else if SignedInOnAuth(user, pathname) then
      Redirect(DashboardPath)
    else if OnRoot(pathname) then
      Redirect(AuthPath)
    else
      Next
  }

  /** No pathname satisfies two rules at once, so the order in which the
      rules are tried never changes the answer. */
  lemma RulesDisjoint(user: bool, pathname: string)
    ensures !(AnonymousOnDashboard(user, pathname) && SignedInOnAuth(user, pathname))
    ensures !(AnonymousOnDashboard(user, pathname) && OnRoot(pathname))
    ensures !(SignedInOnAuth(user, pathname) && OnRoot(pathname))
  {
    if AnonymousOnDashboard(user, pathname) {
      assert pathname[..|DashboardPath|] == DashboardPath;
      assert pathname[1] == 'd';
    }
  }

  /** Without a user, every pathname under the `/dashboard` prefix is sent to `/auth`. */
  lemma AnonymousDashboardGoesToAuth(pathname: string, rest: string)
    requires pathname == DashboardPath + rest
    ensures Guard(false, pathname) == Redirect(AuthPath)
  {
    assert pathname[..|DashboardPath|] == DashboardPath;
  }

  /** With a user, exactly `/auth` is sent to `/dashboard`; nothing else is. */
  lemma SignedInAuthGoesToDashboard(pathname: string)
    ensures Guard(true, pathname) == Redirect(DashboardPath) <==> pathname == AuthPath
  {
  }

  /** The root is redirected to `/auth` whether or not there is a user. */
  lemma RootAlwaysGoesToAuth(user: bool)
    ensures Guard(user, RootPath) == Redirect(AuthPath)
  {
  }

  /** The pass-through cases named by the rules: an anonymous visit to
      `/auth` and a signed-in visit to any dashboard path. */
  lemma PassThroughCases(pathname: string)
    requires StartsWith(pathname, DashboardPath)
    ensures Guard(false, AuthPath) == Next
    ensures Guard(true, pathname) == Next
  {
    assert pathname[1] == 'd';
  }

  /** Following the guard's redirects never loops: the target of a redirect
      is either let through or redirected once more to a page that is let
      through (a signed-in visit to `/` goes to `/auth`, then `/dashboard`). */
  lemma {:induction false} RedirectsSettle(user: bool, pathname: string)
    ensures Guard(user, pathname).Redirect? ==>
      var t := Guard(user, pathname).target;
      Guard(user, t) == Next ||
      (Guard(user, t).Redirect? && Guard(user, Guard(user, t).target) == Next)
  {
    assert !StartsWith(AuthPath, DashboardPath) by { assert AuthPath[1] != DashboardPath[1]; }
    assert !StartsWith(RootPath, DashboardPath);
    assert StartsWith(DashboardPath, DashboardPath);
  }

  /** The paths that `config.matcher` selects: `/`, `/auth`, and
      `/dashboard/:path*` (the dashboard itself or anything below it). */
  predicate Matched(pathname: string) {
    pathname == RootPath || pathname == AuthPath ||
    pathname == DashboardPath || StartsWith(pathname, DashboardPath + "/")
  }

  /** The middleware as deployed: it runs only on matched paths; every
      other request goes through untouched. */
  function Middleware(user: bool, pathname: string): (d: Decision)
    ensures !Matched(pathname) ==> d == Next
    ensures Matched(pathname) ==> d == Guard(user, pathname)
    ensures d.Redirect? ==> d.target != pathname && Matched(d.target)
  {
    if Matched(pathname) then Guard(user, pathname) else Next
  }

  /** On matched paths the guard's `startsWith('/dashboard')` test picks out
      exactly the matcher's dashboard routes. */
  lemma MatchedDashboardPrefix(pathname: string)
    requires Matched(pathname)
    ensures StartsWith(pathname, DashboardPath) <==>
      (pathname == DashboardPath || StartsWith(pathname, DashboardPath + "/"))
  {
    if StartsWith(pathname, DashboardPath + "/") {
      assert pathname[..|DashboardPath|] == (DashboardPath + "/")[..|DashboardPath|];
    }
  }

  /** A prefix match that is not a route: the guard alone would redirect an
      anonymous `/dashboardx`, but the matcher never runs it there. */
  lemma PrefixOutsideMatcher()
    ensures Guard(false, "/dashboardx") == Redirect(AuthPath)
    ensures Middleware(false, "/dashboardx") == Next
  {
    assert "/dashboardx"[..|DashboardPath|] == DashboardPath;
    assert !StartsWith("/dashboardx", DashboardPath + "/") by {
      assert "/dashboardx"[10] != (DashboardPath + "/")[10];
    }
  }
}

=== FILE: session.dfy ===
/** A dashboard session: any sequence of user events and timer ticks applied
    to one page, and a few concrete runs that exercise the handlers together.

    The page reacts only to controls it renders (`Rendered`): while it is
    loading only a spinner is rendered; the vault illustration is on the
    vault panel; the vault's close button is inside the open vault, and so
    is one drawer button for each listed password (none when the list is
    empty); the close, reveal, copy and delete buttons are inside an
    open drawer (copy and delete act on the selected password); each form
    input and save button is on its own panel, the generated password's save
    button only once a password has been generated, and the diary form only
    once the diary is unlocked. An event for a control that is not rendered
    is ignored. Random draws that `Math.random` cannot produce are ignored
    too. The overlays do not remove what lies beneath them: the sidebar and
    the panel stay in the document while an overlay is open, covered by it
    and out of the pointer's reach but reachable by keyboard, so they count
    as rendered. The mount effect
    has no dependencies, so it runs once, before loading has finished.
 */
module Session {
  import opened PasswordGenerator
  import opened Dashboard

  /** One thing that can happen to the page. */
  datatype Event =
    | Mount(session: bool, passwordList: Listing<Password>, diaryList: Listing<DiaryEntry>)
    | PressCreate
    | PressGenerate
    | PressDiary
    | PressVault
    | PressDrawer(p: Password)
    | PressCloseVault
    | PressCloseDrawer
    | PressReveal
    | PressCopy
    | PressDelete(outcome: Outcome, listing: Listing<Password>)
    | PressGenerateRandom(draws: seq<nat>)
    | Type(field: FormField, text: string)
    | PressSavePassword(user: UserLookup, insert: Outcome, listing: Listing<Password>)
    | PressSaveGenerated(user: UserLookup, insert: Outcome, listing: Listing<Password>)
    | PressSaveDiary(user: UserLookup, insert: Outcome, diaryListing: Listing<DiaryEntry>, today: string)
    | TimerTick

  /** Whether the control behind `e` is rendered (in the document, though
      possibly covered by an overlay). The timers do not depend
      on what is rendered; the mount effect runs only while the page is still
      loading. */
  predicate Rendered(page: DashboardPage, e: Event)
    reads page
  {
    match e
    case Mount(_, _, _) => page.loading
    case TimerTick => true
    case PressCreate => !page.loading
    case PressGenerate => !page.loading
    case PressDiary => !page.loading
    case PressVault => !page.loading && page.currentView == Vault
    case PressDrawer(p) => !page.loading && page.vaultOpen && p in page.passwords
    case PressCloseVault => !page.loading && page.vaultOpen
    case PressCloseDrawer => !page.loading && page.selectedPassword.Some?
    case PressReveal => !page.loading && page.selectedPassword.Some?
    case PressCopy => !page.loading && page.selectedPassword.Some?
    case PressDelete(_, _) => !page.loading && page.selectedPassword.Some?
    case PressGenerateRandom(_) => !page.loading && page.currentView == Generate
    case Type(field, _) =>
      !page.loading &&
      (match field
       case NewPasswordName => page.currentView == Create
       case NewPasswordValue => page.currentView == Create
       case GeneratedPasswordName => page.currentView == Generate
       case DiaryDate => page.DiaryFormShown()
       case DiaryTitle => page.DiaryFormShown()
       case DiaryContent => page.DiaryFormShown())
    case PressSavePassword(_, _, _) => !page.loading && page.currentView == Create
    case PressSaveGenerated(_, _, _) =>
      !page.loading && page.currentView == Generate && page.generatedPassword != ""
    case PressSaveDiary(_, _, _, _) => !page.loading && page.DiaryFormShown()
  }

  /** What an event sends out of the page besides changing its state: a
      navigation, a clipboard write, or a request to the record store. */
  datatype Effect =
    | NoEffect
    | NavigateToAuth
    | ToClipboard(text: string)
    | DeleteRequested(id: string)
    | PasswordSent(password: PasswordInsert)
    | DiarySent(entry: DiaryInsert)

  /** The record a password save sent to the store, if it got that far. */
  function SentPassword(status: SaveStatus<PasswordInsert>): Effect {
    match status
    case Saved(r) => PasswordSent(r)
    case InsertFailed(r) => PasswordSent(r)
    case _ => NoEffect
  }

  /** What each rendered control does: the handler it is wired to, with the
      arguments the page passes it, and the effect it sends out. */
  twostate predicate Wired(page: DashboardPage, e: Event, effect: Effect)
    reads page
  {
    match e
    case Mount(session, passwordList, diaryList) =>
      (effect == NavigateToAuth <==> !session) &&
      (!session ==> unchanged(page)) &&
      (session ==>
        effect == NoEffect && !page.loading &&
        page.passwords == Reloaded(passwordList, old(page.passwords)) &&
        page.diaryEntries == Reloaded(diaryList, old(page.diaryEntries)))
    case PressCreate => page.currentView == Create
    case PressGenerate => page.currentView == Generate
    case PressDiary =>
      page.currentView == Diary && page.diaryOpen &&
      page.gateRuns == old(page.gateRuns) + (if old(page.diaryOpen) then 0 else 1)
    case PressVault => page.vaultOpen && page.gateRuns == old(page.gateRuns) + 1
    case PressDrawer(p) => page.selectedPassword == Some(p) && page.gateRuns == old(page.gateRuns) + 1
    case PressCloseVault => !page.vaultOpen && page.selectedPassword == None
    case PressCloseDrawer => page.vaultOpen && page.selectedPassword == None
    case PressReveal => page.showPassword == !old(page.showPassword)
    case PressCopy =>
      old(page.selectedPassword).Some? &&
      effect == ToClipboard(old(page.selectedPassword).value.password) &&
      page.copied && page.pendingCopyResets == old(page.pendingCopyResets) + 1
    case PressDelete(outcome, listing) =>
      old(page.selectedPassword).Some? &&
      effect == DeleteRequested(old(page.selectedPassword).value.id) &&
      (outcome == Err ==> unchanged(page)) &&
      (outcome == Ok ==>
        page.vaultOpen && page.selectedPassword == None &&
        page.passwords == Reloaded(listing, old(page.passwords)))
    case PressGenerateRandom(draws) =>
      (ValidDraws(draws) ==> page.generatedPassword == Spell(draws)) &&
      (!ValidDraws(draws) ==> unchanged(page))
    case Type(field, text) =>
      page.FieldValue(field) == text &&
      forall other :: other != field ==> page.FieldValue(other) == old(page.FieldValue(other))
    case PressSavePassword(user, insert, listing) =>
      var name, value := old(page.newPasswordName), old(page.newPasswordValue);
      (effect != NoEffect <==> name != "" && value != "" && user.SignedIn?) &&
      (effect != NoEffect ==> effect == PasswordSent(PasswordInsert(user.id, name, value))) &&
      (effect != NoEffect && insert == Ok ==>
        page.currentView == Vault && page.newPasswordName == "" && page.newPasswordValue == "" &&
        page.passwords == Reloaded(listing, old(page.passwords)))
    case PressSaveGenerated(user, insert, listing) =>
      var name, value := old(page.generatedPasswordName), old(page.generatedPassword);
      (effect != NoEffect <==> name != "" && value != "" && user.SignedIn?) &&
      (effect != NoEffect ==> effect == PasswordSent(PasswordInsert(user.id, name, value))) &&
      (effect != NoEffect && insert == Ok ==>
        page.currentView == Vault && page.generatedPasswordName == "" && page.generatedPassword == "" &&
        page.passwords == Reloaded(listing, old(page.passwords)))
    case PressSaveDiary(user, insert, listing, today) =>
      var title, content, date := old(page.diaryTitle), old(page.diaryContent), old(page.diaryDate);
      page.gateRuns == old(page.gateRuns) &&
      (effect != NoEffect <==> title != "" && content != "" && user.SignedIn?) &&
      (effect != NoEffect ==> effect == DiarySent(DiaryInsert(user.id, title, content, date))) &&
      (effect != NoEffect && insert == Ok ==>
        page.diaryTitle == "" && page.diaryContent == "" && page.diaryDate == today &&
        page.diaryEntries == Reloaded(listing, old(page.diaryEntries)))
    case TimerTick =>
      (old(page.pendingCopyResets) > 0 ==>
        !page.copied && page.pendingCopyResets == old(page.pendingCopyResets) - 1) &&
      (old(page.pendingCopyResets) == 0 ==> unchanged(page))
  }

  /** Applies one event: a rendered control runs the handler it is wired to,
      with the arguments the page passes it; anything else changes nothing.
      Whatever happens, the page invariant is kept, the diary never locks
      again, and the vault panel is entered only through one of the two
      password saves: no control selects it directly. Only the vault, drawer
      and diary buttons and the two password saves run the biometric gate,
      and only they open what it guards. */
  method Dispatch(page: DashboardPage, e: Event) returns (effect: Effect)
    requires page.Valid()
    modifies page
    ensures page.Valid()
    ensures old(page.diaryOpen) ==> page.diaryOpen
    ensures page.currentView == Vault && old(page.currentView) != Vault ==>
      e.PressSavePassword? || e.PressSaveGenerated?
    ensures !old(Rendered(page, e)) ==> unchanged(page) && effect == NoEffect
    // The gate and what it guards.
    ensures page.gateRuns <= old(page.gateRuns) + 1
    ensures page.gateRuns != old(page.gateRuns) ==>
      e.PressDiary? || e.PressVault? || e.PressDrawer? || e.PressSavePassword? || e.PressSaveGenerated?
    ensures !old(page.vaultOpen) && page.vaultOpen ==> e.PressVault?
    ensures old(page.selectedPassword) == None && page.selectedPassword.Some? ==> e.PressDrawer?
    ensures !old(page.diaryOpen) && page.diaryOpen ==> e.PressDiary?
    ensures old(Rendered(page, e)) ==> Wired(page, e, effect)
  {
    effect := NoEffect;
    if !Rendered(page, e) {
      return;
    }
    match e
    case Mount(session, passwordList, diaryList) =>
      var redirected := page.CheckUser(session, passwordList, diaryList);
      if redirected {
        effect := NavigateToAuth;
      }
    case PressCreate => page.SelectCreate();
    case PressGenerate => page.SelectGenerate();
    case PressDiary => var _ := page.SelectDiary();
    case PressVault => page.OpenVault();
    case PressDrawer(p) => page.OpenDrawer(p);
    case PressCloseVault => page.CloseVault();
    case PressCloseDrawer => page.CloseDrawer();
    case PressReveal => page.ToggleShowPassword();
    case PressCopy =>
      var clipboard := page.CopyPassword(page.selectedPassword.value.password);
      effect := ToClipboard(clipboard);
    case PressDelete(outcome, listing) =>
      var deleted := page.DeletePassword(page.selectedPassword.value.id, outcome, listing);
      effect := DeleteRequested(deleted);
    case PressGenerateRandom(draws) =>
      if ValidDraws(draws) {
        page.GenerateRandomPassword(draws);
      }
    case Type(field, text) => page.Edit(field, text);
    case PressSavePassword(user, insert, listing) =>
      var status := page.SavePassword(user, insert, listing);
      effect := SentPassword(status);
    case PressSaveGenerated(user, insert, listing) =>
      var status := page.SaveGeneratedPassword(user, insert, listing);
      effect := SentPassword(status);
    case PressSaveDiary(user, insert, listing, today) =>
      var status := page.SaveDiaryEntry(user, insert, listing, today);
      if status.Saved? {
        effect := DiarySent(status.inserted);
      } else if status.InsertFailed? {
        effect := DiarySent(status.attempted);
      }
    case TimerTick => page.Tick();
  }

  /** Applies a whole sequence of events. The invariant holds after every
      prefix, and once unlocked the diary stays unlocked to the end. */
  method Run(page: DashboardPage, events: seq<Event>)
    requires page.Valid()
    modifies page
    ensures page.Valid()
    ensures old(page.diaryOpen) ==> page.diaryOpen
  {
    var i := 0;
    while i < |events|
      invariant 0 <= i <= |events|
      invariant page.Valid()
      invariant old(page.diaryOpen) ==> page.diaryOpen
    {
      var _ := Dispatch(page, events[i]);
      i := i + 1;
    }
  }

  /** A freshly mounted page of a signed-in user who has the passwords
      `stored` and no diary entries: the spinner is gone and the vault panel
      is shown. The concrete runs below start from it and press only
      controls that are rendered. */
  method SignedInPage(today: string, stored: seq<Password>) returns (page: DashboardPage)
    ensures fresh(page) && page.Valid()
    ensures !page.loading && page.currentView == Vault
    ensures page.passwords == stored && page.diaryEntries == []
    ensures !page.vaultOpen && page.selectedPassword == None
    ensures !page.showPassword && !page.copied && page.pendingCopyResets == 0
    ensures page.newPasswordName == "" && page.newPasswordValue == ""
    ensures page.generatedPassword == "" && page.generatedPasswordName == ""
    ensures page.diaryTitle == "" && page.diaryContent == "" && page.diaryDate == today
    ensures !page.diaryOpen
  {
    page := new DashboardPage(today);
    assert Rendered(page, Mount(true, Listed(stored), Listed([])));
    var redirected := page.CheckUser(true, Listed(stored), Listed([]));
    assert !redirected;
  }

  /** Sign in, open the generate panel, generate, name it "Email", save,
      open the vault: the store receives one 16-character password over the
      charset named "Email" for this user, the page is back on the vault
      panel with the name and the generated password cleared, and the vault
      overlay shows the reloaded list. */
  method GenerateAndStore(draws: seq<nat>, userId: string, today: string, stored: seq<Password>)
    returns (status: SaveStatus<PasswordInsert>, view: View, shown: seq<Password>, vaultOpen: bool,
             password: string, name: string)
    requires ValidDraws(draws)
    ensures status == Saved(PasswordInsert(userId, "Email", Spell(draws)))
    ensures IsGeneratedPassword(status.inserted.password)
    ensures view == Vault && vaultOpen && shown == stored
    ensures password == "" && name == ""
  {
    var page := SignedInPage(today, []);
    assert Rendered(page, PressGenerate);
    page.SelectGenerate();
    assert Rendered(page, PressGenerateRandom(draws));
    page.GenerateRandomPassword(draws);
    assert Rendered(page, Type(GeneratedPasswordName, "Email"));
    page.Edit(GeneratedPasswordName, "Email");
    assert Rendered(page, PressSaveGenerated(SignedIn(userId), Ok, Listed(stored)));
    status := page.SaveGeneratedPassword(SignedIn(userId), Ok, Listed(stored));
    assert Rendered(page, PressVault);
    page.OpenVault();
    view, shown, vaultOpen := page.currentView, page.passwords, page.vaultOpen;
    password, name := page.generatedPassword, page.generatedPasswordName;
  }

  /** Saving with an empty name sends nothing and stays on the create panel,
      whatever the store would have answered. */
  method SaveWithoutName(value: string, user: UserLookup, insert: Outcome, today: string)
    returns (status: SaveStatus<PasswordInsert>, view: View, typed: string)
    ensures status == MissingFields
    ensures view == Create && typed == value
  {
    var page := SignedInPage(today, []);
    assert Rendered(page, PressCreate);
    page.SelectCreate();
    assert Rendered(page, Type(NewPasswordValue, value));
    page.Edit(NewPasswordValue, value);
    assert page.FieldValue(NewPasswordName) == "";
    assert Rendered(page, PressSavePassword(user, insert, ListFailed));
    status := page.SavePassword(user, insert, ListFailed);
    view, typed := page.currentView, page.newPasswordValue;
  }

  /** A refused insert keeps the typed fields and the panel. */
  method SaveRefused(name: string, value: string, userId: string, today: string)
    returns (status: SaveStatus<PasswordInsert>, view: View, keptName: string, keptValue: string)
    requires name != "" && value != ""
    ensures status == InsertFailed(PasswordInsert(userId, name, value))
    ensures view == Create && keptName == name && keptValue == value
  {
    var page := SignedInPage(today, []);
    assert Rendered(page, PressCreate);
    page.SelectCreate();
    assert Rendered(page, Type(NewPasswordName, name));
    page.Edit(NewPasswordName, name);
    assert Rendered(page, Type(NewPasswordValue, value));
    page.Edit(NewPasswordValue, value);
    assert page.FieldValue(NewPasswordName) == name;
    assert Rendered(page, PressSavePassword(SignedIn(userId), Err, Listed([])));
    status := page.SavePassword(SignedIn(userId), Err, Listed([]));
    view, keptName, keptValue := page.currentView, page.newPasswordName, page.newPasswordValue;
  }

  /** The copy confirmation shows at once and is gone after the next tick. */
  method CopyThenTick(p: Password, stored: seq<Password>, today: string)
    returns (clipboard: string, shownAfterCopy: bool, shownAfterTick: bool)
    requires p in stored
    ensures clipboard == p.password
    ensures shownAfterCopy && !shownAfterTick
  {
    var page := SignedInPage(today, stored);
    assert Rendered(page, PressVault);
    page.OpenVault();
    assert Rendered(page, PressDrawer(p));
    page.OpenDrawer(p);
    assert Rendered(page, PressCopy);
    clipboard := page.CopyPassword(page.selectedPassword.value.password);
    shownAfterCopy := page.copied;
    assert Rendered(page, TimerTick);
    page.Tick();
    shownAfterTick := page.copied;
  }

  /** Deleting from a drawer asks the store to delete that password's row.
      A deleted password closes its drawer but leaves the vault overlay
      open; a failed delete leaves the drawer open on the same password. */
  method DeleteFromDrawer(p: Password, stored: seq<Password>, outcome: Outcome, today: string,
                          remaining: seq<Password>)
    returns (deleted: string, vaultOpen: bool, selected: Option<Password>)
    requires p in stored
    ensures deleted == p.id
    ensures vaultOpen
    ensures outcome == Ok <==> selected == None
    ensures outcome == Err ==> selected == Some(p)
  {
    var page := SignedInPage(today, stored);
    assert Rendered(page, PressVault);
    page.OpenVault();
    assert Rendered(page, PressDrawer(p));
    page.OpenDrawer(p);
    assert Rendered(page, PressDelete(outcome, Listed(remaining)));
    deleted := page.DeletePassword(page.selectedPassword.value.id, outcome, Listed(remaining));
    vaultOpen, selected := page.vaultOpen, page.selectedPassword;
  }

  /** The diary button gates only the first time; the panel is the diary
      both times and the diary stays unlocked. */
  method DiaryTwice(today: string)
    returns (firstGated: bool, secondGated: bool, view: View, unlocked: bool)
    ensures firstGated && !secondGated
    ensures view == Diary && unlocked
  {
    var page := SignedInPage(today, []);
    assert Rendered(page, PressDiary);
    firstGated := page.SelectDiary();
    assert Rendered(page, PressCreate);
    page.SelectCreate();
    assert Rendered(page, PressDiary);
    secondGated := page.SelectDiary();
    view, unlocked := page.currentView, page.diaryOpen;
  }

  /** A stored diary entry clears title and content and resets the date to
      today, without leaving the diary panel; an empty title sends nothing. */
  method DiaryEntryStored(userId: string, title: string, content: string, date: string, today: string)
    returns (refused: SaveStatus<DiaryInsert>, status: SaveStatus<DiaryInsert>, view: View,
             cleared: bool, dateAfter: string)
    requires title != "" && content != ""
    ensures refused == MissingFields
    ensures status == Saved(DiaryInsert(userId, title, content, date))
    ensures view == Diary && cleared && dateAfter == today
  {
    var page := SignedInPage(date, []);
    assert Rendered(page, PressDiary);
    var _ := page.SelectDiary();
    assert Rendered(page, PressSaveDiary(SignedIn(userId), Ok, Listed([]), today));
    refused := page.SaveDiaryEntry(SignedIn(userId), Ok, Listed([]), today);
    assert Rendered(page, Type(DiaryTitle, title));
    page.Edit(DiaryTitle, title);
    assert page.FieldValue(DiaryDate) == date;
    assert Rendered(page, Type(DiaryContent, content));
    page.Edit(DiaryContent, content);
    assert page.FieldValue(DiaryDate) == date && page.FieldValue(DiaryTitle) == title;
    assert Rendered(page, PressSaveDiary(SignedIn(userId), Ok, Listed([]), today));
    status := page.SaveDiaryEntry(SignedIn(userId), Ok, Listed([]), today);
    view, cleared, dateAfter := page.currentView, page.diaryTitle == "" && page.diaryContent == "", page.diaryDate;
  }

  /** The reveal flag belongs to the page, not to a drawer: a password shown
      in one drawer leaves the next drawer opened already revealed. */
  method RevealCarriesOver(p: Password, q: Password, stored: seq<Password>, today: string)
    returns (selected: Option<Password>, revealed: bool)
    requires p in stored && q in stored
    ensures selected == Some(q) && revealed
  {
    var page := SignedInPage(today, stored);
    assert Rendered(page, PressVault);
    page.OpenVault();
    assert Rendered(page, PressDrawer(p));
    page.OpenDrawer(p);
    assert Rendered(page, PressReveal);
    page.ToggleShowPassword();
    assert Rendered(page, PressCloseDrawer);
    page.CloseDrawer();
    assert Rendered(page, PressDrawer(q));
    page.OpenDrawer(q);
    selected, revealed := page.selectedPassword, page.showPassword;
  }
}
